=== FILE: README.md ===
# WeChat Official Account message services — a Dafny model

The repository holds small web services for a WeChat Official Account. This
model covers the logic inside three of them.

- **work1/main.py** is the cloud-hosted webhook. It checks the request
  signature and parses the inbound message. It then dispatches on the message
  type: text, the media types and location/link messages each become one
  five-column row (接收时间, 用户OpenID, 消息类型, 消息内容, 消息ID), and any other
  type is just acknowledged with `success`. A stored row is appended to the
  message table downloaded from object storage. The table is written back
  de-duplicated by 消息ID, keeping the last occurrence, so WeChat's redelivery
  of a message leaves one row for it. When a save fails, the failure is
  raised, not swallowed.
- **work3/main.py** is the push service. It keeps a cached access token that
  expires 60 seconds before the server says it does. It parses a
  comma-separated OpenID list and sends one custom text message per
  recipient. Each recipient's outcome is recorded, failures included.
- **fastapi1.py** is the self-hosted webhook. Its verification handshake hashes
  the sorted concatenation of token, timestamp and nonce. Its message handler
  appends one row per request to a local spreadsheet, with no
  de-duplication. Its XML reply swaps the sender and the addressee.

Everything is pure functions over immutable values, plus two methods that
touch no heap: the loop over the push recipients and the handler that runs it. The clock, the hash, the downloads, the uploads and the HTTP
endpoints are all parameters.

Modules:

- `Base` (base.dfy): Option and Result.
- `Text` (text.dfy): the Python string operations the handlers use.
  - `str.isspace`, `strip()`, `split(",")` and joining with "".
  - Joining with a separator, which no handler does: it is the reference
    definition `split` is stated against.
  - Slicing off the last `n` characters, for positive `n`.
  - Code-point string order and `sorted`.
- `MessageStore` (message_store.dfy): work1's table, loading, keep-last
  de-duplication and saving.
- `CloudHandler` (cloud_handler.dfy): work1's `receive_message`, with
  `strftime` timestamps.
- `Push` (push.dfy): work3's token cache, payload, OpenID parsing and fan-out.
- `LocalHandler` (local_handler.dfy): fastapi1's verification, message
  handler and reply.

Two facts about the code are easy to miss:

- work1 does not acknowledge every request. It answers a bad signature with
  status 403 and a body that fails to parse with status 500.
- Neither webhook has a JSON layer. work1 uses the WeChat SDK's XML parser,
  fastapi1 uses `xmltodict`. work1 takes the message ID from the parsed
  message; fastapi1 stores none.

## Model

| member | source | states |
|---|---|---|
| MessageStore.Load | work1/main.py:31-46 | Loading never fails. It yields the downloaded rows, or no rows when the download or the read fails; either way the header is exactly 接收时间, 用户OpenID, 消息类型, 消息内容, 消息ID, in that order |
| MessageStore.KeepLast | work1/main.py:52 | De-duplication keeps every message ID of the input, and the survivors are a subsequence of the input, so their relative order is kept |
| MessageStore.KeepLastUnique | work1/main.py:52 | After de-duplication no message ID occurs twice |
| MessageStore.KeepLastKeepsLast | work1/main.py:52 | The surviving row for each message ID is the last row carrying that ID, found by an independent scan from the end |
| MessageStore.KeepLastSurvivors | work1/main.py:52 | Every row that no later row shares an ID with survives de-duplication |
| MessageStore.KeepLastDropsEarlier | work1/main.py:52 | A row whose ID reappears later is dropped, unless an identical row also appears later |
| MessageStore.KeepLastDistinct | work1/main.py:51-52 | Rows whose IDs are already distinct are all kept, unchanged and in order |
| MessageStore.KeepLastIdempotent | work1/main.py:52 | De-duplicating an already de-duplicated table changes nothing |
| MessageStore.KeepLastAppend | work1/main.py:52 | De-duplicating after appending a row gives the older rows without that ID, de-duplicated, followed by the new row |
| MessageStore.KeepLastAbsorb | work1/main.py:52 | De-duplicating, appending more rows and de-duplicating again equals de-duplicating the whole once |
| MessageStore.Append | work1/main.py:119-121 | The table after appending has the same columns and the old rows unchanged, in order, with the new row after them |
| MessageStore.Save | work1/main.py:48-64 | A save succeeds exactly when storage works. It then writes exactly the keep-last de-duplication of its input: unique IDs, every ID of the input, each written row the last row of the input with its ID, and the order of `KeepLast`, a subsequence of the input. Otherwise the failure is returned to the caller |
| MessageStore.SaveAppendedRow | work1/main.py:119-124 | After appending a row and saving, that row is the table's last entry and no other row carries its ID. Every ID is held once, and the IDs are the old table's plus the new row's |
| MessageStore.Redelivery | work1/main.py:119-124 | Storing a row and then a row with the same ID leaves exactly the table the second row alone would have produced |
| MessageStore.RedeliveryIdempotent | work1/main.py:52 | Delivering the same row twice stores the same table as delivering it once |
| CloudHandler.ReceivedAt | work1/main.py:111 | Cutting the last three characters of the `%Y-%m-%d %H:%M:%S.%f` time leaves the time with three-digit milliseconds, 23 characters long |
| CloudHandler.ReceivedAtMillis | work1/main.py:111 | The last three characters of the time cell read back as the microseconds divided by 1000 |
| CloudHandler.DigitsRoundTrip | work1/main.py:111 | A number that fits the field width, zero-padded and read back, gives the number |
| CloudHandler.Dispatch | work1/main.py:107-149 | A row is stored exactly for text with content and for image, voice, video, shortvideo, location and link messages. A text message without content raises. The row carries sender, type, message ID and millisecond time. Text content is the stripped content; media types store `media_id` and location/link store `title`, "无" when the attribute is missing; each branch has its own reply text |
| CloudHandler.StoreAndReply | work1/main.py:118-128 | A failed save raises with nothing written. Otherwise the reply goes out and the uploaded table, under the loaded header, is the loaded rows plus the new row de-duplicated keeping the last: it ends with the new row, holds each ID once, and holds the loaded IDs plus the new one |
| CloudHandler.Receive | work1/main.py:83-149 | An invalid signature gives 403 and a parse failure gives 500, with nothing written. A storable message with working storage is always uploaded and answered. Unhandled types give "success" with nothing written. A text message without content, or a failed save, raises to the framework with nothing written. An XML reply goes out exactly when a table was uploaded, and its text is the branch's reply. The uploaded table is the loaded rows plus the new row, de-duplicated keeping the last. It has the fixed header, ends with the new row, holds each ID once, and holds the IDs of the loaded table plus the new one |
| CloudHandler.FailedSaveNoReply | work1/main.py:62-64 | When storage fails, nothing counts as written and there is no XML reply. A message that was to be stored gets the raised error, never the "success" acknowledgement |
| CloudHandler.RedeliveredMessage | work1/main.py:119-124 | When a message is redelivered, the table holds exactly one row for its ID, the newest one. The table equals what the second delivery alone would have stored |
| Text.DropLast | work1/main.py:111 | Slicing off the last `n` characters (`n` > 0) leaves a prefix of the input, `n` shorter, or "" when the input is shorter than `n` |
| Text.Strip | work1/main.py:114 | `strip()` yields a string without edge whitespace that is the input with only whitespace removed from either end |
| Text.StripIdempotent | work1/main.py:114 | Stripping twice is stripping once |
| Text.StripEmptyIff | work3/main.py:57 | A string strips to "" exactly when it is all whitespace |
| Text.Split | work3/main.py:57 | `split(",")` yields at least one piece, none containing a comma, and joining the pieces with commas gives the input back |
| Text.SplitJoin | work3/main.py:57 | Splitting a comma-joined list of comma-free pieces gives the pieces back |
| Text.SplitConcat | work3/main.py:57 | Splitting `a + "," + b` gives the pieces of `a` followed by the pieces of `b` |
| Text.Sort | fastapi1.py:20 | `sorted` returns the same strings in non-decreasing code-point order |
| Text.Concat | fastapi1.py:20 | Joining with "" gives "" for no strings and the string itself for one, and it starts with its first string |
| Text.ConcatAppend | fastapi1.py:20 | Joining two lists end to end equals joining each and concatenating the results |
| Text.SortedUnique | fastapi1.py:20 | Two sorted lists holding the same strings are equal |
| Text.SortPermutationInvariant | fastapi1.py:20 | Sorting gives the same list for any order of its input |
| Push.GetAccessToken | work3/main.py:14-28 | A non-empty, unexpired cached token is returned without a request. Otherwise the endpoint is called. A reply carrying a token and a lifetime always succeeds: the token is returned and cached with expiry now + expires_in − 60. A reply with a token but no `expires_in` stores the token, keeps the old expiry and raises the key error. A reply without a token raises "获取 access_token 失败: …", and a failed request raises its own error; both leave the cache unchanged |
| Push.RefreshThenHit | work3/main.py:17-26 | After a successful refresh, any call before now + expires_in − 60 returns the same token without a request |
| Push.TextPayload | work3/main.py:34-38 | The payload has exactly the keys touser, msgtype and text. touser is the OpenID, msgtype is "text", and text is an object whose only key, content, holds the message |
| Push.ParseOpenIds | work3/main.py:57 | Every parsed OpenID is non-empty, comma-free and has no edge whitespace |
| Push.ParseOpenIdsPiece | work3/main.py:57 | A single comma-free piece yields nothing when it is all whitespace, and otherwise exactly its stripped text |
| Push.ParseOpenIdsJoin | work3/main.py:57 | Clean OpenIDs joined by commas parse back to exactly those OpenIDs, in order |
| Push.ParseOpenIdsConcat | work3/main.py:57 | Parsing two lists joined by a comma gives the OpenIDs of the first followed by those of the second |
| Push.ParseOpenIdsEmptyIff | work3/main.py:57-59 | The list yields no OpenID exactly when it holds only commas and whitespace |
| Push.PushOne | work3/main.py:30-67 | One recipient's push reports that recipient and leaves the cache the token lookup left. A token error becomes `Failed` with its text. Otherwise the text payload for that recipient is posted with the token: a raised send becomes `Failed` with its text, a decoded reply becomes `Replied` with that reply |
| Push.Fanout | work3/main.py:61-69 | The loop gives one result per recipient, in recipient order, whatever each push did |
| Push.PushEach | work3/main.py:61-67 | The iterative loop produces one result per recipient, in order, and equals the recursive fan-out, including the final token cache |
| Push.PushMessage | work3/main.py:48-69 | An empty parsed list, and only that, gives the "没有有效 OpenID" error with no request and the cache unchanged. Otherwise pushed_count equals the number of parsed OpenIDs and the results are one per OpenID, in order |
| LocalHandler.SignatureInput | fastapi1.py:20 | The hashed string is the three values in code-point order, each once, joined end to end |
| LocalHandler.Verify | fastapi1.py:18-25 | echostr is returned when the hash of the sorted concatenation of token, timestamp and nonce equals the signature; "verification failed" otherwise |
| LocalHandler.SignatureInputPermutation | fastapi1.py:20 | The hashed string is the same for every ordering of the three values |
| LocalHandler.VerifySwap | fastapi1.py:20-25 | Swapping timestamp and nonce never changes the verification outcome |
| LocalHandler.AppendRow | fastapi1.py:41-45 | The rows written are the existing rows, unchanged, followed by the new row; with no file, just the new row |
| LocalHandler.HandleMessage | fastapi1.py:29-57 | A missing `xml` root or FromUserName raises with the file untouched. Otherwise the file grows by exactly one row (sender, Content or "", time) at the end. The reply swaps addressees, with MsgType text and fixed content. A missing ToUserName raises after the row was written |
| LocalHandler.RepeatedDeliveryDuplicates | fastapi1.py:40-45 | Nothing is de-duplicated: the same message delivered twice, at any two times, grows the file by two rows after the old ones, and the two agree on sender and content |

## Left out

- HTTP routing, FastAPI response classes, uvicorn start-up, and the `/health` and `/` endpoints: framework plumbing with no logic of their own.
- The WeChat SDK calls. `check_signature` is a boolean input. `parse_message` is an optional parsed record whose missing attributes are `None`. `create_reply(...).render()` is the reply text only; the SDK's addressing of that reply is not modelled.
- work1's `wechat_verify` (work1/main.py:67-81): it only forwards the SDK's signature check, which the model takes as a given boolean.
- SHA-1 and hex encoding in fastapi1.py:21: a function parameter, never implemented.
- pandas, openpyxl and the xlsx format: tables are sequences of rows. A downloaded table is assumed to carry the five-column header the handler writes. The column union of `pd.concat` for foreign headers, and NaN cells, are not modelled.
- Object-storage download and upload, the local temporary file, and `os.path.exists`: a download is an optional table and a save is one success flag.
- fastapi1's read or write failure of the local spreadsheet: the file is assumed readable and writable.
- `requests` calls to the token and send endpoints: their decoded replies, or the texts of the exceptions they raise, are inputs. Exception texts other than the token error and the missing `expires_in` key are abstract strings.
- `datetime.now()`, `time.time()`, `time.localtime()`: parameters. `time.time()` is integer seconds, and the two readings in `get_access_token` are the same instant.
- CloudHandler.Dispatch: `None` for `media_id` or `title` means the parsed message lacks that attribute, which is stored as "无". (A text message without `content` raises and stores nothing.) The SDK's message classes decide which attributes exist and what a declared but unset field holds. Those classes are not part of this model, so the model cannot tell an absent attribute from a declared field set to `None`, and it lets a location carry a title.
- Text.DropLast: only a positive count of characters is modelled. Python's slice with a zero end gives the empty string, and the handler only ever cuts three characters.
- CloudHandler.ReceivedAt: years are limited to 1000-9999, so `%Y` always has four digits; Python's rendering of earlier years is not modelled.
- `xmltodict` details: an empty element (text `None`) and a root whose content is not a mapping are not modelled.
- Python strings may hold lone surrogates; Dafny characters cannot, so `sorted` and `strip` are modelled on Unicode scalar values.
- Logging (`print`), the environment-variable assertions at work1/main.py:23-26, and the unimportable module name at work1/main.py:8.
- work2/main2.py, fastapi2.py, fastapi3.py: a form page, web scraping and two unconditional HTTP calls, with no logic beyond their libraries.
- Concurrency: the handlers hold no locks and start no background work.

=== FILE: base.dfy ===
/** Option and Result values shared by every handler in the model. */
module Base {

  /** A value that may be missing: an absent attribute, a file that does not exist. */
  datatype Option<+T> = None | Some(value: T)
  {
    function GetOr(default: T): T
    {
      match this
      case Some(v) => v
      case None => default
    }
  }

  /** The outcome of a step that raises in Python: `Err` carries the exception text. */
  datatype Result<+T, +E> = Ok(value: T) | Err(error: E)
}

=== FILE: cloud_handler.dfy ===
/** The message webhook of the cloud-hosted Official Account service
    (work1/main.py, `receive_message`): signature gate, parse, dispatch on the
    message type, load-append-save of the message table, and the reply. */
module CloudHandler {
  import opened Base
  import opened Text
  import opened MessageStore

  // ---------------------------------------------------------------- clock

  type Year = y: int | 1000 <= y <= 9999 witness 2000
  type Month = m: int | 1 <= m <= 12 witness 1
  type Day = d: int | 1 <= d <= 31 witness 1
  type Hour = h: int | 0 <= h < 24
  type Minute = m: int | 0 <= m < 60
  type Second = s: int | 0 <= s < 60
  type Micro = u: int | 0 <= u < 1000000

  /** The value of `datetime.now()`, passed in by the caller. */
  datatype DateTime = DateTime(year: Year, month: Month, day: Day,
                               hour: Hour, minute: Minute, second: Second, micro: Micro)

  function DigitChar(d: nat): char
    requires d < 10
  {
    "0123456789"[d]
  }

  function DigitValue(c: char): nat
  {
    if '0' <= c <= '9' then (c - '0') as nat else 0
  }

  function Pow10(n: nat): (p: nat)
    ensures p >= 1
  {
    if n == 0 then 1 else 10 * Pow10(n - 1)
  }

  /** `n` written in decimal with exactly `width` digits, zero-padded on the
      left: strftime's `%m`, `%d`, `%H`, `%M`, `%S`, `%f` and, for four-digit
      years, `%Y`. */
  function Digits(n: nat, width: nat): (r: string)
    ensures |r| == width
    ensures forall k :: 0 <= k < |r| ==> '0' <= r[k] <= '9'
  {
    if width == 0 then "" else Digits(n / 10, width - 1) + [DigitChar(n % 10)]
  }

  /** Reading decimal digits back. */
  function ParseDigits(s: string): nat
  {
    if |s| == 0 then 0 else 10 * ParseDigits(s[..|s| - 1]) + DigitValue(s[|s| - 1])
  }

  /** Writing a number that fits in `width` digits and reading it back gives the number. */
  lemma {:induction false} DigitsRoundTrip(n: nat, width: nat)
    requires n < Pow10(width)
    ensures ParseDigits(Digits(n, width)) == n
  {
    if width > 0 {
      var s := Digits(n, width);
      assert s[..|s| - 1] == Digits(n / 10, width - 1);
      assert n / 10 < Pow10(width - 1);
      DigitsRoundTrip(n / 10, width - 1);
      assert DigitValue(DigitChar(n % 10)) == n % 10 by {
        assert "0123456789"[n % 10] as int - '0' as int == n % 10;
      }
    }
  }

  /** The date and time to the second: year, month and day joined by hyphens,
      a space, then hour, minute and second joined by colons. */
  function FormatSeconds(t: DateTime): string
  {
    Digits(t.year, 4) + "-" + Digits(t.month, 2) + "-" + Digits(t.day, 2) + " "
      + Digits(t.hour, 2) + ":" + Digits(t.minute, 2) + ":" + Digits(t.second, 2)
  }

  /** The time to the second followed by a dot and the microseconds as six digits. */
  function FormatMicros(t: DateTime): string
  {
    FormatSeconds(t) + "." + Digits(t.micro, 6)
  }

  /** The 接收时间 cell: the microsecond time with its last three characters
      cut off, which leaves the milliseconds. */
  function ReceivedAt(t: DateTime): (r: string)
    ensures r == FormatSeconds(t) + "." + Digits(t.micro / 1000, 3)
    ensures |r| == 23
  {
    var full := FormatMicros(t);
    var m: nat := t.micro;
    assert Digits(m, 6)[..3] == Digits(m / 1000, 3) by {
      assert Digits(m, 6) == Digits(m / 10, 5) + [DigitChar(m % 10)];
      assert Digits(m / 10, 5) == Digits(m / 10 / 10, 4) + [DigitChar(m / 10 % 10)];
      assert Digits(m / 10 / 10, 4) == Digits(m / 10 / 10 / 10, 3) + [DigitChar(m / 10 / 10 % 10)];
      assert m / 10 / 10 / 10 == m / 1000;
    }
    assert full[..|full| - 3] == FormatSeconds(t) + "." + Digits(m, 6)[..3];
    DropLast(full, 3)
  }

  /** The milliseconds can be read back from the time cell. */
  lemma ReceivedAtMillis(t: DateTime)
    ensures ParseDigits(ReceivedAt(t)[20..]) == t.micro / 1000
  {
    var r := ReceivedAt(t);
    assert |FormatSeconds(t)| == 19;
    assert r[20..] == Digits(t.micro / 1000, 3);
    assert Pow10(3) == 1000;
    DigitsRoundTrip(t.micro / 1000, 3);
  }

  // ---------------------------------------------------------------- messages

  /** A message as the WeChat SDK parses it. Attributes the parsed object may
      lack are optional: `content` (text), `mediaId` (image, voice, video, short
      video) and `title` (link). */
  datatype WxMessage = WxMessage(kind: string, source: string, target: string, id: MsgId,
                                 content: Option<string>, mediaId: Option<string>,
                                 title: Option<string>)

  const MediaKinds: seq<string> := ["image", "voice", "video", "shortvideo"]
  const TitledKinds: seq<string> := ["location", "link"]

  /** What the handler stores for an attribute the message lacks. */
  const Missing: string := "无"

  const TextReply: string := "✅ 消息已收到，感谢你的反馈！"

  function MediaReply(kind: string): string
  {
    "✅ 已收到" + kind + "类型消息！"
  }

  /** The branch a message takes: store a row and reply, acknowledge without
      storing, or raise (a text message without content cannot be stripped). */
  datatype Action = StoreRow(row: Row, reply: string) | Ignore | Crash

  /** The type dispatch of `receive_message`. */
  function Dispatch(msg: WxMessage, now: DateTime): (a: Action)
    ensures a.StoreRow? <==>
      (msg.kind == "text" && msg.content.Some?) || msg.kind in MediaKinds || msg.kind in TitledKinds
    ensures a.Crash? <==> msg.kind == "text" && msg.content.None?
    ensures a.StoreRow? ==>
      && a.row.openId == msg.source && a.row.kind == msg.kind && a.row.msgId == msg.id
      && a.row.receivedAt == FormatSeconds(now) + "." + Digits(now.micro / 1000, 3)
    ensures a.StoreRow? && msg.kind == "text" ==>
      Trimmed(a.row.content) && (exists i: nat :: PaddedAt(msg.content.value, a.row.content, i))
      && a.reply == TextReply
    ensures a.StoreRow? && msg.kind in MediaKinds ==>
      a.row.content == msg.mediaId.GetOr(Missing) && a.reply == MediaReply(msg.kind)
    ensures a.StoreRow? && msg.kind in TitledKinds ==>
      a.row.content == msg.title.GetOr(Missing) && a.reply == MediaReply(msg.kind)
  {
    if msg.kind == "text" then
      match msg.content
      case Some(c) => StoreRow(Row(ReceivedAt(now), msg.source, msg.kind, Strip(c), msg.id), TextReply)
      case None => Crash
    else if msg.kind in MediaKinds || msg.kind in TitledKinds then
      var content := if msg.kind in MediaKinds then msg.mediaId.GetOr(Missing) else msg.title.GetOr(Missing);
      StoreRow(Row(ReceivedAt(now), msg.source, msg.kind, content, msg.id), MediaReply(msg.kind))
    else
      Ignore
  }

  // ---------------------------------------------------------------- handler

  /** The POST request: whether the SDK accepts its signature, and the parsed
      body, `None` when parsing raised. */
  datatype Request = Request(signatureValid: bool, parsed: Option<WxMessage>)

  /** The world the handler sees: the clock, what the table download yields
      (`None` when it or the read fails), and whether writing back succeeds. */
  datatype Env = Env(now: DateTime, download: Option<seq<Row>>, storageOk: bool)

  /** A plain-text response with its status, the rendered XML reply to the
      sender, or an exception left to the framework. */
  datatype Response = Plain(status: int, body: string) | XmlReply(text: string) | Unhandled

  /** The response and the table uploaded, if any. */
  datatype Outcome = Outcome(response: Response, written: Option<Frame>)

  /** The end of a storing branch: append the row to the loaded table, save,
      and reply. A failed save raises, so nothing is acknowledged. */
  function StoreAndReply(loaded: Frame, row: Row, reply: string, storageOk: bool): (o: Outcome)
    ensures !storageOk ==> o == Outcome(Unhandled, None)
    ensures storageOk ==>
      && o.response == XmlReply(reply) && o.written.Some?
      && var rows := o.written.value.rows;
      && o.written.value.columns == loaded.columns
      && rows == KeepLast(loaded.rows + [row])
      && |rows| > 0 && rows[|rows| - 1] == row
      && UniqueIds(rows)
      && Ids(rows) == Ids(loaded.rows) + {row.msgId}
  {
    SaveAppendedRow(loaded, row);
    match Save(Append(loaded, row), storageOk)
    case Err(_) => Outcome(Unhandled, None)
    case Ok(saved) => Outcome(XmlReply(reply), Some(saved))
  }

  /** `receive_message`. */
  function Receive(req: Request, env: Env): (o: Outcome)
    ensures !req.signatureValid ==> o == Outcome(Plain(403, "Invalid signature"), None)
    ensures req.signatureValid && req.parsed.None? ==> o == Outcome(Plain(500, "Parse message failed"), None)
    ensures req.signatureValid && req.parsed.Some? && Dispatch(req.parsed.value, env.now).Ignore? ==>
      o == Outcome(Plain(200, "success"), None)
    ensures req.signatureValid && req.parsed.Some? && Dispatch(req.parsed.value, env.now).Crash? ==>
      o == Outcome(Unhandled, None)
    ensures req.signatureValid && req.parsed.Some? && Dispatch(req.parsed.value, env.now).StoreRow?
            && !env.storageOk ==>
      o == Outcome(Unhandled, None)
    ensures req.signatureValid && req.parsed.Some? && Dispatch(req.parsed.value, env.now).StoreRow?
            && env.storageOk ==>
      o.written.Some?
    ensures o.response.XmlReply? <==> o.written.Some?
    ensures o.written.Some? ==>
      && env.storageOk && req.signatureValid && req.parsed.Some?
      && Dispatch(req.parsed.value, env.now).StoreRow?
    ensures o.written.Some? ==>
      var rows := o.written.value.rows;
      var row := Dispatch(req.parsed.value, env.now).row;
      && o.written.value.columns == Columns
      && |rows| > 0 && rows[|rows| - 1] == row
      && UniqueIds(rows)
      && Ids(rows) == Ids(Load(env.download).rows) + {req.parsed.value.id}
      && rows == KeepLast(Load(env.download).rows + [row])
    ensures o.response.XmlReply? ==> o.response.text == Dispatch(req.parsed.value, env.now).reply
  {
    if !req.signatureValid then Outcome(Plain(403, "Invalid signature"), None)
    else match req.parsed
      case None => Outcome(Plain(500, "Parse message failed"), None)
      case Some(msg) =>
        match Dispatch(msg, env.now)
        case Ignore => Outcome(Plain(200, "success"), None)
        case Crash => Outcome(Unhandled, None)
        case StoreRow(row, text) => StoreAndReply(Load(env.download), row, text, env.storageOk)
  }

  /** A failed save is raised: no reply goes out, nothing is recorded as
      written, and a message that was to be stored is left to the framework's
      error answer rather than acknowledged, so WeChat delivers it again. */
  lemma FailedSaveNoReply(req: Request, env: Env)
    requires !env.storageOk
    ensures !Receive(req, env).response.XmlReply?
    ensures Receive(req, env).written.None?
    ensures req.signatureValid && req.parsed.Some? && Dispatch(req.parsed.value, env.now).StoreRow? ==>
      Receive(req, env) == Outcome(Unhandled, None)
  {
  }

  /** A message that is stored once is stored by every delivery that can save. */
  lemma ReceiveWrites(req: Request, first: Env, second: Env)
    requires Receive(req, first).written.Some?
    requires second.storageOk
    ensures Receive(req, second).written.Some?
  {
    var msg := req.parsed.value;
    assert Dispatch(msg, second.now).StoreRow? by {
      assert msg.kind == Dispatch(msg, first.now).row.kind;
    }
  }

  /** WeChat redelivers a message: the second delivery downloads what the first
      uploaded. The table then holds exactly one row for the message ID, the
      newest one, and equals what the second delivery alone would have stored. */
  lemma RedeliveredMessage(req: Request, first: Env, second: Env)
    requires Receive(req, first).written.Some?
    requires second.download == Some(Receive(req, first).written.value.rows)
    requires second.storageOk
    ensures Receive(req, second).written.Some?
    ensures var rows := Receive(req, second).written.value.rows;
      var newest := Dispatch(req.parsed.value, second.now).row;
      && rows == KeepLast(Load(first.download).rows + [newest])
      && forall i :: 0 <= i < |rows| && rows[i].msgId == req.parsed.value.id ==> rows[i] == newest
  {
    var msg := req.parsed.value;
    var older := Dispatch(msg, first.now).row;
    var newest := Dispatch(msg, second.now).row;
    var base := Load(first.download).rows;
    ReceiveWrites(req, first, second);
    Redelivery(base, older, newest);
    SaveAppendedRow(Load(second.download), newest);
  }
}

=== FILE: local_handler.dfy ===
/** The self-hosted webhook (fastapi1.py): the verification handshake that
    hashes the sorted token, timestamp and nonce, the message handler that
    appends one row per request to a local spreadsheet without any
    de-duplication, and the XML reply that swaps the two addressees. */
module LocalHandler {
  import opened Base
  import opened Text

  /** The shared secret configured in the file. */
  const Token: string := "your_token"

  const VerificationFailed: string := "verification failed"

  /** What is hashed: the three values sorted as strings and concatenated. */
  function SignatureInput(token: string, timestamp: string, nonce: string): (s: string)
    ensures var p := Sort([token, timestamp, nonce]);
      && multiset(p) == multiset([token, timestamp, nonce])
      && |p| == 3 && LexLe(p[0], p[1]) && LexLe(p[1], p[2])
      && s == p[0] + p[1] + p[2]
  {
    SortThree([token, timestamp, nonce]);
    Concat(Sort([token, timestamp, nonce]))
  }

  /** Three strings sorted: three strings in order, joined end to end. */
  lemma SortThree(xs: seq<string>)
    requires |xs| == 3
    ensures var p := Sort(xs);
      && multiset(p) == multiset(xs)
      && |p| == 3 && LexLe(p[0], p[1]) && LexLe(p[1], p[2])
      && Concat(p) == p[0] + p[1] + p[2]
  {
    var p := Sort(xs);
    assert |p| == |multiset(p)| == |multiset(xs)| == 3;
    ConcatThree(p);
  }

  lemma ConcatThree(p: seq<string>)
    requires |p| == 3
    ensures Concat(p) == p[0] + p[1] + p[2]
  {
    assert p[1..][1..] == p[2..];
    assert p[2..][1..] == [];
  }

  /** `wechat_verify`: `sha1Hex` stands for the lower-case hexadecimal SHA-1
      digest of the string's UTF-8 bytes. */
  function Verify(signature: string, timestamp: string, nonce: string, echostr: string,
                  sha1Hex: string -> string): (r: string)
    ensures sha1Hex(SignatureInput(Token, timestamp, nonce)) == signature ==> r == echostr
    ensures sha1Hex(SignatureInput(Token, timestamp, nonce)) != signature ==> r == VerificationFailed
  {
    if sha1Hex(SignatureInput(Token, timestamp, nonce)) == signature then echostr
    else VerificationFailed
  }

  /** The hashed string depends on the three values only, not on their order. */
  lemma SignatureInputPermutation(a: string, b: string, c: string, x: string, y: string, z: string)
    requires multiset([a, b, c]) == multiset([x, y, z])
    ensures SignatureInput(a, b, c) == SignatureInput(x, y, z)
  {
    SortPermutationInvariant([a, b, c], [x, y, z]);
  }

  /** Swapping timestamp and nonce cannot change the verification outcome. */
  lemma VerifySwap(signature: string, timestamp: string, nonce: string, echostr: string,
                   sha1Hex: string -> string)
    ensures Verify(signature, timestamp, nonce, echostr, sha1Hex)
         == Verify(signature, nonce, timestamp, echostr, sha1Hex)
  {
    var a := [Token, timestamp, nonce];
    var b := [Token, nonce, timestamp];
    assert a == [Token] + [timestamp] + [nonce] && b == [Token] + [nonce] + [timestamp];
    assert multiset(a) == multiset(b);
    SignatureInputPermutation(Token, timestamp, nonce, Token, nonce, timestamp);
  }

  // ---------------------------------------------------------------- messages

  /** The children of an XML element as `xmltodict` gives them: tag to text. */
  type Fields = map<string, string>

  /** The request body after `xmltodict.parse`: `None` when the body is not
      well-formed XML, otherwise the top-level element's tag and children. */
  type ParsedBody = Option<map<string, Fields>>

  /** One spreadsheet row: sender, content, local time as `%Y-%m-%d %H:%M:%S`. */
  datatype Row = Row(sender: string, content: string, time: string)

  const ReplyContent: string := "消息已收到，已保存到Excel"

  /** The reply envelope, field by field. */
  datatype Envelope = Envelope(toUserName: string, fromUserName: string, createTime: int,
                               msgType: string, content: string)

  /** The reply, or an exception left to the framework. */
  datatype Response = Reply(envelope: Envelope) | ServerError

  /** The response and the spreadsheet afterwards (`None`: no file). */
  datatype Outcome = Outcome(response: Response, file: Option<seq<Row>>)

  /** The `xml` element's children, when the body parsed and has one. */
  function Message(body: ParsedBody): Option<Fields>
  {
    if body.Some? && "xml" in body.value then Some(body.value["xml"]) else None
  }

  /** The rows after appending `row`: the file's rows plus the new one, or the
      new one alone when there is no file. */
  function AppendRow(file: Option<seq<Row>>, row: Row): (rows: seq<Row>)
    ensures |rows| == |file.GetOr([])| + 1
    ensures rows[..|rows| - 1] == file.GetOr([]) && rows[|rows| - 1] == row
  {
    match file
    case Some(existing) => existing + [row]
    case None => [row]
  }

  /** `wechat_message`: `nowText` is the formatted local time and `nowSeconds`
      the integer clock used for `CreateTime`. */
  function HandleMessage(body: ParsedBody, file: Option<seq<Row>>, nowText: string, nowSeconds: int)
    : (o: Outcome)
    ensures Message(body).None? ==> o == Outcome(ServerError, file)
    ensures Message(body).Some? && "FromUserName" !in Message(body).value ==> o == Outcome(ServerError, file)
    ensures Message(body).Some? && "FromUserName" in Message(body).value ==>
      var msg := Message(body).value;
      && o.file.Some?
      && |o.file.value| == |file.GetOr([])| + 1
      && o.file.value[..|file.GetOr([])|] == file.GetOr([])
      && o.file.value[|file.GetOr([])|].sender == msg["FromUserName"]
      && o.file.value[|file.GetOr([])|].content == (if "Content" in msg then msg["Content"] else "")
      && o.file.value[|file.GetOr([])|].time == nowText
    ensures o.response.Reply? <==> Message(body).Some? && "FromUserName" in Message(body).value
                                   && "ToUserName" in Message(body).value
    ensures o.response.Reply? ==>
      var msg := Message(body).value;
      o.response.envelope == Envelope(msg["FromUserName"], msg["ToUserName"], nowSeconds, "text", ReplyContent)
  {
    match Message(body)
    case None => Outcome(ServerError, file)
    case Some(msg) =>
      if "FromUserName" !in msg then Outcome(ServerError, file)
      else
        var row := Row(msg["FromUserName"], if "Content" in msg then msg["Content"] else "", nowText);
        var written := Some(AppendRow(file, row));
        // `ToUserName` is looked up only after the file has been written
        if "ToUserName" !in msg then Outcome(ServerError, written)
        else Outcome(Reply(Envelope(msg["FromUserName"], msg["ToUserName"], nowSeconds, "text", ReplyContent)), written)
  }

  /** The store is not de-duplicated: the same message delivered twice is
      stored twice, at whatever times the two deliveries arrive, and the two
      rows agree on sender and content. */
  lemma RepeatedDeliveryDuplicates(body: ParsedBody, file: Option<seq<Row>>,
                                   nowText1: string, nowText2: string, now1: int, now2: int)
    requires Message(body).Some? && "FromUserName" in Message(body).value
    ensures var first := HandleMessage(body, file, nowText1, now1);
      var second := HandleMessage(body, first.file, nowText2, now2);
      var n := |file.GetOr([])|;
      && |second.file.value| == n + 2
      && second.file.value[..n] == file.GetOr([])
      && second.file.value[n].sender == second.file.value[n + 1].sender
      && second.file.value[n].content == second.file.value[n + 1].content
      && second.file.value[n].time == nowText1 && second.file.value[n + 1].time == nowText2
  {
    var first := HandleMessage(body, file, nowText1, now1);
    var n := |file.GetOr([])|;
    assert first.file.value[..n] == file.GetOr([]);
    var msg := Message(body).value;
    assert first.file.value[n] == Row(msg["FromUserName"], if "Content" in msg then msg["Content"] else "", nowText1);
    var second := HandleMessage(body, first.file, nowText2, now2);
    assert second.file.value[..n] == first.file.value[..n + 1][..n];
  }
}

=== FILE: message_store.dfy ===
/** The spreadsheet of received messages kept by the cloud-hosted handler
    (work1/main.py): a table of five-column rows, loaded from object storage,
    extended by one row per stored message and written back with duplicates of
    a message ID removed, the last occurrence winning. */
module MessageStore {
  import opened Base

  /** WeChat's numeric message identifier, the de-duplication key. */
  type MsgId = int

  /** One row: 接收时间 (receive time), 用户OpenID (sender), 消息类型 (type),
      消息内容 (content), 消息ID (message ID). */
  datatype Row = Row(receivedAt: string, openId: string, kind: string, content: string, msgId: MsgId)

  /** The column header, in order. */
  const Columns: seq<string> := ["接收时间", "用户OpenID", "消息类型", "消息内容", "消息ID"]

  /** A data frame: its header and its rows in order. */
  datatype Frame = Frame(columns: seq<string>, rows: seq<Row>)

  /** Why a save raised: writing the local file or uploading it failed. */
  datatype SaveError = SaveFailed

  // ---------------------------------------------------------------- ids

  /** The message IDs occurring in `rows`. */
  function Ids(rows: seq<Row>): set<MsgId>
  {
    if |rows| == 0 then {} else {rows[0].msgId} + Ids(rows[1..])
  }

  lemma {:induction false} IdsMember(rows: seq<Row>, k: MsgId)
    ensures k in Ids(rows) <==> exists i :: 0 <= i < |rows| && rows[i].msgId == k
  {
    if |rows| > 0 {
      IdsMember(rows[1..], k);
      if k in Ids(rows[1..]) {
        var i :| 0 <= i < |rows[1..]| && rows[1..][i].msgId == k;
        assert rows[i + 1].msgId == k;
      }
      if exists i :: 0 <= i < |rows| && rows[i].msgId == k {
        var i :| 0 <= i < |rows| && rows[i].msgId == k;
        if i > 0 { assert rows[1..][i - 1].msgId == k; }
      }
    }
  }

  lemma {:induction false} IdsConcat(a: seq<Row>, b: seq<Row>)
    ensures Ids(a + b) == Ids(a) + Ids(b)
  {
    if |a| > 0 {
      assert (a + b)[1..] == a[1..] + b;
      IdsConcat(a[1..], b);
    } else {
      assert a + b == b;
    }
  }

  /** No message ID occurs twice. */
  ghost predicate UniqueIds(rows: seq<Row>)
  {
    forall i, j :: 0 <= i < j < |rows| ==> rows[i].msgId != rows[j].msgId
  }

  /** Row `i` is the last one carrying its message ID. */
  ghost predicate LastOccurrence(rows: seq<Row>, i: int)
    requires 0 <= i < |rows|
  {
    forall j :: i < j < |rows| ==> rows[j].msgId != rows[i].msgId
  }

  /** The last row carrying message ID `k`, found scanning from the end: the
      reference meaning of "keep the last". */
  function LastWith(rows: seq<Row>, k: MsgId): Option<Row>
  {
    if |rows| == 0 then None
    else if rows[|rows| - 1].msgId == k then Some(rows[|rows| - 1])
    else LastWith(rows[..|rows| - 1], k)
  }

  lemma {:induction false} LastWithCons(x: Row, rows: seq<Row>, k: MsgId)
    ensures LastWith([x] + rows, k) ==
      if k in Ids(rows) then LastWith(rows, k)
      else if x.msgId == k then Some(x) else None
    ensures LastWith(rows, k).Some? <==> k in Ids(rows)
    ensures LastWith(rows, k).Some? ==> LastWith(rows, k).value.msgId == k
    decreases |rows|
  {
    var s := [x] + rows;
    if |rows| == 0 {
      assert s[..0] == [];
    } else {
      var n := |rows| - 1;
      assert s[..|s| - 1] == [x] + rows[..n];
      assert rows == rows[..n] + [rows[n]];
      IdsConcat(rows[..n], [rows[n]]);
      assert Ids([rows[n]]) == {rows[n].msgId} by { assert [rows[n]][1..] == []; }
      LastWithCons(x, rows[..n], k);
    }
  }

  /** `rows` minus every row carrying message ID `k`. */
  function WithoutId(rows: seq<Row>, k: MsgId): (r: seq<Row>)
    ensures Ids(r) == Ids(rows) - {k}
  {
    if |rows| == 0 then []
    else if rows[0].msgId == k then WithoutId(rows[1..], k)
    else [rows[0]] + WithoutId(rows[1..], k)
  }

  /** `a` is `b` with some rows left out, the rest in their original order. */
  predicate Subsequence(a: seq<Row>, b: seq<Row>)
    decreases |b|
  {
    if |a| == 0 then true
    else if |b| == 0 then false
    else if a[0] == b[0] then Subsequence(a[1..], b[1..])
    else Subsequence(a, b[1..])
  }

  /** Dropping the first row of `a` keeps it a subsequence. */
  lemma {:induction false} SubsequenceTail(a: seq<Row>, b: seq<Row>)
    requires |a| > 0 && Subsequence(a, b)
    ensures Subsequence(a[1..], b)
    decreases |b|, 1
  {
    if a[0] == b[0] {
      SubsequenceSkip(a[1..], b);
    } else {
      SubsequenceTail(a, b[1..]);
      SubsequenceSkip(a[1..], b);
    }
  }

  /** A subsequence of `b[1..]` is a subsequence of `b`. */
  lemma {:induction false} SubsequenceSkip(a: seq<Row>, b: seq<Row>)
    requires |b| > 0 && Subsequence(a, b[1..])
    ensures Subsequence(a, b)
    decreases |b|, 0
  {
    if |a| > 0 && a[0] == b[0] {
      SubsequenceTail(a, b[1..]);
    }
  }

  // ---------------------------------------------------------------- keep-last

  /** pandas' de-duplication on the 消息ID column keeping the last occurrence:
      a row survives exactly when no later row carries its message ID. The
      survivors carry every message ID of the input and keep their relative
      order; `KeepLastUnique` shows each ID survives exactly once. */
  function KeepLast(rows: seq<Row>): (r: seq<Row>)
    ensures Ids(r) == Ids(rows)
    ensures Subsequence(r, rows)
  {
    if |rows| == 0 then []
    else
      var rest := KeepLast(rows[1..]);
      if rows[0].msgId in Ids(rows[1..]) then
        SubsequenceSkip(rest, rows);
        rest
      else
        var r := [rows[0]] + rest;
        assert r[1..] == rest;
        r
  }

  /** After de-duplication no message ID occurs twice. */
  lemma {:induction false} KeepLastUnique(rows: seq<Row>)
    ensures UniqueIds(KeepLast(rows))
  {
    if |rows| > 0 {
      var rest := KeepLast(rows[1..]);
      KeepLastUnique(rows[1..]);
      if rows[0].msgId !in Ids(rows[1..]) {
        var r := [rows[0]] + rest;
        assert KeepLast(rows) == r;
        forall i, j | 0 <= i < j < |r| ensures r[i].msgId != r[j].msgId {
          assert r[j] == rest[j - 1];
          if i == 0 {
            IdsMember(rest, r[j].msgId);
          } else {
            assert r[i] == rest[i - 1];
          }
        }
      }
    }
  }

  /** The survivor for each message ID is the last row the input carried with it. */
  lemma {:induction false} KeepLastKeepsLast(rows: seq<Row>, x: Row)
    requires x in KeepLast(rows)
    ensures LastWith(rows, x.msgId) == Some(x)
  {
    var rest := KeepLast(rows[1..]);
    assert rows == [rows[0]] + rows[1..];
    LastWithCons(rows[0], rows[1..], x.msgId);
    if rows[0].msgId in Ids(rows[1..]) {
      KeepLastKeepsLast(rows[1..], x);
    } else if x == rows[0] {
    } else {
      KeepLastKeepsLast(rows[1..], x);
    }
  }

  /** Every survivor is the last row of the input with its message ID. */
  lemma KeepLastAllLast(rows: seq<Row>)
    ensures forall x :: x in KeepLast(rows) ==> LastWith(rows, x.msgId) == Some(x)
  {
    forall x | x in KeepLast(rows) ensures LastWith(rows, x.msgId) == Some(x) {
      KeepLastKeepsLast(rows, x);
    }
  }

  /** Every row that is the last of its message ID survives. */
  lemma KeepLastSurvivors(rows: seq<Row>, i: int)
    requires 0 <= i < |rows| && LastOccurrence(rows, i)
    ensures rows[i] in KeepLast(rows)
  {
    var k := rows[i].msgId;
    var r := KeepLast(rows);
    IdsMember(rows, k);
    IdsMember(r, k);
    var j :| 0 <= j < |r| && r[j].msgId == k;
    KeepLastKeepsLast(rows, r[j]);
    LastWithIsLastOccurrence(rows, i);
  }

  lemma {:induction false} LastWithIsLastOccurrence(rows: seq<Row>, i: int)
    requires 0 <= i < |rows| && LastOccurrence(rows, i)
    ensures LastWith(rows, rows[i].msgId) == Some(rows[i])
    decreases |rows|
  {
    var n := |rows| - 1;
    if i < n {
      assert rows[n].msgId != rows[i].msgId;
      LastWithIsLastOccurrence(rows[..n], i);
    }
  }

  /** A row whose message ID occurs later is dropped. */
  lemma KeepLastDropsEarlier(rows: seq<Row>, i: int)
    requires 0 <= i < |rows| && !LastOccurrence(rows, i)
    ensures rows[i] !in KeepLast(rows) || exists j :: i < j < |rows| && rows[j] == rows[i]
  {
    var j :| i < j < |rows| && rows[j].msgId == rows[i].msgId;
    if rows[i] in KeepLast(rows) {
      KeepLastKeepsLast(rows, rows[i]);
      LastWithIsAfter(rows, i, j);
    }
  }

  /** When row `j` carries `k`, the last row with `k` sits at or after `j`. */
  lemma {:induction false} LastWithIsAfter(rows: seq<Row>, i: int, j: int)
    requires 0 <= i < j < |rows| && rows[j].msgId == rows[i].msgId
    requires LastWith(rows, rows[i].msgId) == Some(rows[i])
    ensures exists m :: i < m < |rows| && rows[m] == rows[i]
    decreases |rows|
  {
    var n := |rows| - 1;
    if rows[n].msgId == rows[i].msgId {
      assert rows[n] == rows[i];
    } else {
      LastWithIsAfter(rows[..n], i, j);
      var m :| i < m < n && rows[..n][m] == rows[i];
      assert rows[m] == rows[i];
    }
  }

  /** Rows whose message IDs are already distinct are all kept, in order. */
  lemma {:induction false} KeepLastDistinct(rows: seq<Row>)
    requires UniqueIds(rows)
    ensures KeepLast(rows) == rows
  {
    if |rows| > 0 {
      assert rows[0].msgId !in Ids(rows[1..]) by {
        forall j | 0 <= j < |rows[1..]| ensures rows[1..][j].msgId != rows[0].msgId {
          assert rows[1..][j] == rows[j + 1];
        }
        IdsMember(rows[1..], rows[0].msgId);
      }
      KeepLastDistinct(rows[1..]);
      assert rows == [rows[0]] + rows[1..];
    }
  }

  /** De-duplicating a de-duplicated table changes nothing. */
  lemma KeepLastIdempotent(rows: seq<Row>)
    ensures KeepLast(KeepLast(rows)) == KeepLast(rows)
  {
    KeepLastUnique(rows);
    KeepLastDistinct(KeepLast(rows));
  }

  /** Appending a row and de-duplicating gives the old rows without that
      message ID, de-duplicated, followed by the new row. */
  lemma {:induction false} KeepLastAppend(rows: seq<Row>, x: Row)
    ensures KeepLast(rows + [x]) == KeepLast(WithoutId(rows, x.msgId)) + [x]
  {
    var s := rows + [x];
    if |rows| == 0 {
      assert s == [x];
      assert KeepLast(s) == [x] by { assert s[1..] == []; }
    } else {
      var a := rows[0];
      assert s[1..] == rows[1..] + [x];
      KeepLastAppend(rows[1..], x);
      IdsConcat(rows[1..], [x]);
      assert Ids([x]) == {x.msgId} by { assert [x][1..] == []; }
      if a.msgId != x.msgId {
        var w := WithoutId(rows, x.msgId);
        assert w == [a] + WithoutId(rows[1..], x.msgId);
        assert w[1..] == WithoutId(rows[1..], x.msgId);
      }
    }
  }

  /** One step of `KeepLast` on a row put in front. */
  lemma KeepLastCons(x: Row, tail: seq<Row>)
    ensures KeepLast([x] + tail) ==
      if x.msgId in Ids(tail) then KeepLast(tail) else [x] + KeepLast(tail)
  {
    assert ([x] + tail)[0] == x;
    assert ([x] + tail)[1..] == tail;
  }

  /** A row whose ID the tail repeats vanishes, with or without more rows after. */
  lemma KeepLastConsShadowed(x: Row, tail: seq<Row>, b: seq<Row>)
    requires x.msgId in Ids(tail)
    ensures KeepLast([x] + tail) == KeepLast(tail)
    ensures KeepLast([x] + tail + b) == KeepLast(tail + b)
  {
    KeepLastCons(x, tail);
    IdsConcat(tail, b);
    assert [x] + tail + b == [x] + (tail + b);
    KeepLastCons(x, tail + b);
  }

  /** A row whose ID the tail does not repeat stays in front of the tail's
      survivors, so absorbing the tail's de-duplication extends to it. */
  lemma KeepLastAbsorbFresh(x: Row, tail: seq<Row>, b: seq<Row>)
    requires x.msgId !in Ids(tail)
    requires KeepLast(KeepLast(tail) + b) == KeepLast(tail + b)
    ensures KeepLast(KeepLast([x] + tail) + b) == KeepLast([x] + tail + b)
  {
    var rest := KeepLast(tail);
    KeepLastCons(x, tail);
    assert KeepLast([x] + tail) + b == [x] + (rest + b);
    assert [x] + tail + b == [x] + (tail + b);
    assert Ids(rest + b) == Ids(tail + b) by {
      IdsConcat(rest, b);
      IdsConcat(tail, b);
    }
    KeepLastCons(x, rest + b);
    KeepLastCons(x, tail + b);
  }

  /** De-duplicating in two steps is de-duplicating once. */
  lemma {:induction false} KeepLastAbsorb(a: seq<Row>, b: seq<Row>)
    ensures KeepLast(KeepLast(a) + b) == KeepLast(a + b)
  {
    if |a| == 0 {
      assert a + b == b;
    } else {
      var x := a[0];
      var tail := a[1..];
      assert a == [x] + tail;
      KeepLastAbsorb(tail, b);
      if x.msgId in Ids(tail) {
        KeepLastConsShadowed(x, tail, b);
      } else {
        KeepLastAbsorbFresh(x, tail, b);
      }
    }
  }

  /** Removing a message ID before appending a row with that ID changes nothing. */
  lemma {:induction false} WithoutIdAppendSame(rows: seq<Row>, x: Row, y: Row)
    requires x.msgId == y.msgId
    ensures WithoutId(rows + [x], y.msgId) == WithoutId(rows, y.msgId)
  {
    if |rows| == 0 {
      assert rows + [x] == [x];
      assert [x][1..] == [];
    } else {
      assert (rows + [x])[1..] == rows[1..] + [x];
      WithoutIdAppendSame(rows[1..], x, y);
    }
  }

  // ---------------------------------------------------------------- load / save

  /** `get_excel_df`: the downloaded table, or, when the download or the read
      fails for any reason, an empty table with the fixed header. Never fails. */
  function Load(download: Option<seq<Row>>): (f: Frame)
    ensures f.columns == Columns
    ensures download.None? ==> f.rows == []
    ensures download.Some? ==> f.rows == download.value
  {
    match download
    case Some(rows) => Frame(Columns, rows)
    case None => Frame(Columns, [])
  }

  /** pandas' concatenation of the table with a one-row frame, renumbering the index. */
  function Append(f: Frame, row: Row): (g: Frame)
    ensures g.columns == f.columns
    ensures |g.rows| == |f.rows| + 1 && g.rows[..|f.rows|] == f.rows && g.rows[|f.rows|] == row
  {
    Frame(f.columns, f.rows + [row])
  }

  /** `save_excel_df`: de-duplicate by message ID keeping the last occurrence,
      then write and upload. `storageOk` says whether the write and the upload
      succeed; when they do not, the failure is raised to the caller. */
  function Save(f: Frame, storageOk: bool): (r: Result<Frame, SaveError>)
    ensures r.Ok? <==> storageOk
    ensures r.Ok? ==> r.value.columns == f.columns
    ensures r.Ok? ==> UniqueIds(r.value.rows) && Ids(r.value.rows) == Ids(f.rows)
    ensures r.Ok? ==> Subsequence(r.value.rows, f.rows)
    ensures r.Ok? ==> forall x :: x in r.value.rows ==> LastWith(f.rows, x.msgId) == Some(x)
    ensures r.Ok? ==> r.value.rows == KeepLast(f.rows)
  {
    if storageOk then
      KeepLastUnique(f.rows);
      KeepLastAllLast(f.rows);
      Ok(Frame(f.columns, KeepLast(f.rows)))
    else Err(SaveFailed)
  }

  /** The table written after appending `row`: the row is its last entry and the
      only one with its message ID; every other message ID keeps its latest row. */
  lemma SaveAppendedRow(f: Frame, row: Row)
    ensures var saved := Save(Append(f, row), true).value.rows;
      && |saved| > 0 && saved[|saved| - 1] == row
      && (forall i :: 0 <= i < |saved| - 1 ==> saved[i].msgId != row.msgId)
      && UniqueIds(saved) && Ids(saved) == Ids(f.rows) + {row.msgId}
  {
    IdsConcat(f.rows, [row]);
    assert Ids([row]) == {row.msgId} by { assert [row][1..] == []; }
    KeepLastAppend(f.rows, row);
    var saved := KeepLast(f.rows + [row]);
    var before := KeepLast(WithoutId(f.rows, row.msgId));
    assert saved == before + [row];
    forall i | 0 <= i < |saved| - 1 ensures saved[i].msgId != row.msgId {
      assert saved[i] == before[i];
      IdsMember(before, row.msgId);
    }
  }

  /** Redelivery: storing a row, then a row with the same message ID, leaves the
      table the second row alone would have produced. Delivering the very same
      row twice therefore leaves the table as after the first delivery. */
  lemma Redelivery(rows: seq<Row>, first: Row, second: Row)
    requires first.msgId == second.msgId
    ensures KeepLast(KeepLast(rows + [first]) + [second]) == KeepLast(rows + [second])
  {
    KeepLastAbsorb(rows + [first], [second]);
    assert rows + [first] + [second] == (rows + [first]) + [second];
    KeepLastAppend(rows + [first], second);
    KeepLastAppend(rows, second);
    WithoutIdAppendSame(rows, first, second);
  }

  /** Delivering the same row twice stores the same table as delivering it once. */
  lemma RedeliveryIdempotent(rows: seq<Row>, x: Row)
    ensures KeepLast(KeepLast(rows + [x]) + [x]) == KeepLast(rows + [x])
  {
    Redelivery(rows, x, x);
  }
}

=== FILE: push.dfy ===
/** The outbound push service (work3/main.py): a cached access token with a
    60-second safety margin, the custom-message payload, the parsing of the
    comma-separated recipient list, and the fan-out that sends one message per
    recipient and records each outcome. */
module Push {
  import opened Base
  import opened Text

  // ---------------------------------------------------------------- token cache

  /** The `ACCESS_TOKEN_CACHE` dictionary: the token (`None` before the first
      fetch) and the second at which it stops being used. */
  datatype TokenCache = TokenCache(token: Option<string>, expiresAt: int)

  /** Seconds shaved off the server's lifetime so a token is never used at its edge. */
  const SafetyMargin: int := 60

  /** The token endpoint's JSON body: `access_token` and `expires_in` when
      present, and the whole body as printed in the error message. */
  datatype TokenReply = TokenReply(accessToken: Option<string>, expiresIn: Option<int>, text: string)

  /** The token request: a decoded reply, or the text of the exception raised
      by the request or the JSON decoding. */
  datatype TokenFetch = FetchRaised(error: string) | Fetched(reply: TokenReply)

  /** One call of `get_access_token`: the token or the exception text, the cache
      afterwards, and whether the endpoint was called. */
  datatype TokenStep = TokenStep(token: Result<string, string>, cache: TokenCache, fetched: bool)

  /** The cache answers without a request: a non-empty token not yet expired. */
  predicate Usable(c: TokenCache, now: int)
  {
    c.token.Some? && c.token.value != "" && c.expiresAt > now
  }

  const TokenErrorPrefix: string := "获取 access_token 失败: "

  /** The text of the key error raised when the reply lacks `expires_in`. */
  const MissingExpiresIn: string := "'expires_in'"

  /** `get_access_token` at clock second `now`, where `fetch` is what the token
      endpoint would answer. */
  function GetAccessToken(c: TokenCache, now: int, fetch: TokenFetch): (s: TokenStep)
    ensures Usable(c, now) ==> s == TokenStep(Ok(c.token.value), c, false)
    ensures !Usable(c, now) ==> s.fetched
    ensures s.token.Ok? && s.fetched ==>
      && fetch.Fetched? && fetch.reply.accessToken == Some(s.token.value)
      && fetch.reply.expiresIn.Some?
      && s.cache == TokenCache(Some(s.token.value), now + fetch.reply.expiresIn.value - SafetyMargin)
    ensures s.fetched && (fetch.FetchRaised? || fetch.reply.accessToken.None?) ==>
      s.token.Err? && s.cache == c
    ensures s.fetched && fetch.Fetched? && fetch.reply.accessToken.None? ==>
      s.token == Err(TokenErrorPrefix + fetch.reply.text)
    ensures !Usable(c, now) && fetch.FetchRaised? ==> s.token == Err(fetch.error)
    ensures !Usable(c, now) && fetch.Fetched? && fetch.reply.accessToken.Some?
            && fetch.reply.expiresIn.Some? ==>
      s == TokenStep(Ok(fetch.reply.accessToken.value),
                     TokenCache(fetch.reply.accessToken, now + fetch.reply.expiresIn.value - SafetyMargin), true)
    ensures !Usable(c, now) && fetch.Fetched? && fetch.reply.accessToken.Some?
            && fetch.reply.expiresIn.None? ==>
      s == TokenStep(Err(MissingExpiresIn), TokenCache(fetch.reply.accessToken, c.expiresAt), true)
  {
    if Usable(c, now) then TokenStep(Ok(c.token.value), c, false)
    else match fetch
      case FetchRaised(e) => TokenStep(Err(e), c, true)
      case Fetched(reply) =>
        match reply.accessToken
        case None => TokenStep(Err(TokenErrorPrefix + reply.text), c, true)
        case Some(t) =>
          // the token is stored before `expires_in` is looked up
          var stored := TokenCache(Some(t), c.expiresAt);
          match reply.expiresIn
          case None => TokenStep(Err(MissingExpiresIn), stored, true)
          case Some(e) => TokenStep(Ok(t), TokenCache(Some(t), now + e - SafetyMargin), true)
  }

  /** A token fetched with a lifetime beyond the margin serves every later call
      made before its lifetime minus the margin has passed, without a request. */
  lemma RefreshThenHit(c: TokenCache, now: int, fetch: TokenFetch, later: int, fetch2: TokenFetch)
    requires !Usable(c, now)
    requires GetAccessToken(c, now, fetch).token.Ok?
    requires GetAccessToken(c, now, fetch).token.value != ""
    requires later < now + fetch.reply.expiresIn.value - SafetyMargin
    ensures var first := GetAccessToken(c, now, fetch);
      var second := GetAccessToken(first.cache, later, fetch2);
      !second.fetched && second.token == first.token
  {
  }

  // ---------------------------------------------------------------- payload

  /** The JSON values the payload is built from. */
  datatype Json = Str(s: string) | Obj(fields: seq<(string, Json)>)

  /** The value under `key` in an object, the first such field. */
  function Field(j: Json, key: string): Option<Json>
    decreases j, 0
  {
    if j.Obj? then FieldIn(j.fields, key) else None
  }

  function FieldIn(fields: seq<(string, Json)>, key: string): Option<Json>
  {
    if |fields| == 0 then None
    else if fields[0].0 == key then Some(fields[0].1)
    else FieldIn(fields[1..], key)
  }

  function Keys(j: Json): seq<string>
  {
    if j.Obj? then seq(|j.fields|, i requires 0 <= i < |j.fields| => j.fields[i].0) else []
  }

  /** The body `push_text_message` posts: `{touser, msgtype: "text", text: {content}}`. */
  function TextPayload(openId: string, content: string): (p: Json)
    ensures Keys(p) == ["touser", "msgtype", "text"]
    ensures Field(p, "touser") == Some(Str(openId))
    ensures Field(p, "msgtype") == Some(Str("text"))
    ensures Field(p, "text").Some? && Keys(Field(p, "text").value) == ["content"]
    ensures Field(Field(p, "text").value, "content") == Some(Str(content))
  {
    var text := Obj([("content", Str(content))]);
    var fields := [("touser", Str(openId)), ("msgtype", Str("text")), ("text", text)];
    assert FieldIn(fields, "msgtype") == FieldIn(fields[1..], "msgtype") == Some(Str("text"));
    assert FieldIn(fields, "text") == FieldIn(fields[1..], "text") == FieldIn(fields[2..], "text") == Some(text);
    assert FieldIn(text.fields, "content") == Some(Str(content));
    Obj(fields)
  }

  // ---------------------------------------------------------------- recipients

  /** Non-empty, free of commas, with no edge whitespace: an OpenID as the list keeps it. */
  predicate CleanId(s: string)
  {
    s != "" && ',' !in s && Trimmed(s)
  }

  predicate NoComma(pieces: seq<string>)
  {
    forall k :: 0 <= k < |pieces| ==> ',' !in pieces[k]
  }

  /** Stripping never brings in a character, a comma in particular. */
  lemma StripNoComma(s: string)
    requires ',' !in s
    ensures ',' !in Strip(s)
  {
    var t := Strip(s);
    var i: nat :| PaddedAt(s, t, i);
    forall j | 0 <= j < |t| ensures t[j] != ',' {
      assert t[j] == s[i + j];
    }
  }

  lemma NoCommaTail(pieces: seq<string>)
    requires |pieces| > 0
    ensures NoComma(pieces) ==> ',' !in Strip(pieces[0]) && NoComma(pieces[1..])
  {
    if NoComma(pieces) {
      StripNoComma(pieces[0]);
      assert NoComma(pieces[1..]) by {
        forall k | 0 <= k < |pieces[1..]| ensures ',' !in pieces[1..][k] {
          assert pieces[1..][k] == pieces[k + 1];
        }
      }
    }
  }

  /** The comprehension over the split pieces: each stripped, the empty ones
      dropped, the order kept. */
  function StripNonEmpty(pieces: seq<string>): (r: seq<string>)
    ensures forall k :: 0 <= k < |r| ==> r[k] != "" && Trimmed(r[k])
    ensures NoComma(pieces) ==> NoComma(r)
    ensures |r| <= |pieces|
  {
    if |pieces| == 0 then []
    else
      var t := Strip(pieces[0]);
      var rest := StripNonEmpty(pieces[1..]);
      NoCommaTail(pieces);
      if t == "" then rest
      else
        var r := [t] + rest;
        assert forall k :: 0 < k < |r| ==> r[k] == rest[k - 1];
        r
  }

  /** The recipient list of `push_message`: split at every comma, each piece
      stripped, the pieces that strip to nothing dropped. */
  function ParseOpenIds(openids: string): (r: seq<string>)
    ensures forall k :: 0 <= k < |r| ==> CleanId(r[k])
  {
    StripNonEmpty(Split(openids, ','))
  }

  lemma {:induction false} StripNonEmptyConcat(a: seq<string>, b: seq<string>)
    ensures StripNonEmpty(a + b) == StripNonEmpty(a) + StripNonEmpty(b)
  {
    if |a| == 0 {
      assert a + b == b;
    } else {
      assert (a + b)[1..] == a[1..] + b;
      StripNonEmptyConcat(a[1..], b);
    }
  }

  /** A single comma-free piece yields nothing when it is all whitespace and
      its stripped text otherwise. */
  lemma ParseOpenIdsPiece(p: string)
    requires ',' !in p
    ensures ParseOpenIds(p) == if AllSpace(p) then [] else [Strip(p)]
  {
    SplitNoSeparator(p, ',');
    StripEmptyIff(p);
    assert [p][1..] == [];
  }

  /** Parsing a list made of two lists joined by a comma parses each half. */
  lemma ParseOpenIdsConcat(a: string, b: string)
    ensures ParseOpenIds(a + "," + b) == ParseOpenIds(a) + ParseOpenIds(b)
  {
    SplitConcat(a, b, ',');
    StripNonEmptyConcat(Split(a, ','), Split(b, ','));
  }

  /** A list written as clean IDs joined by commas parses back to those IDs. */
  lemma {:induction false} ParseOpenIdsJoin(ids: seq<string>)
    requires |ids| >= 1
    requires forall k :: 0 <= k < |ids| ==> CleanId(ids[k])
    ensures ParseOpenIds(Join(ids, ',')) == ids
  {
    SplitJoin(ids, ',');
    StripNonEmptyClean(ids);
  }

  lemma {:induction false} StripNonEmptyClean(ids: seq<string>)
    requires forall k :: 0 <= k < |ids| ==> CleanId(ids[k])
    ensures StripNonEmpty(ids) == ids
  {
    if |ids| > 0 {
      var head := ids[0];
      var tail := ids[1..];
      assert CleanId(head);
      StripOfTrimmed(head);
      forall k | 0 <= k < |tail| ensures CleanId(tail[k]) {
        assert tail[k] == ids[k + 1];
      }
      StripNonEmptyClean(tail);
      assert StripNonEmpty(ids) == [head] + StripNonEmpty(tail);
      assert ids == [head] + tail;
    }
  }

  /** Every character is a comma or whitespace. */
  predicate Blank(s: string)
  {
    forall k :: 0 <= k < |s| ==> s[k] == ',' || IsSpace(s[k])
  }

  /** Every piece is all whitespace. */
  predicate AllSpacePieces(pieces: seq<string>)
  {
    forall k :: 0 <= k < |pieces| ==> AllSpace(pieces[k])
  }

  /** Stripping and dropping empties leaves nothing exactly when every piece is whitespace. */
  lemma {:induction false} StripNonEmptyEmptyIff(pieces: seq<string>)
    ensures StripNonEmpty(pieces) == [] <==> AllSpacePieces(pieces)
  {
    if |pieces| > 0 {
      StripEmptyIff(pieces[0]);
      StripNonEmptyEmptyIff(pieces[1..]);
      assert AllSpacePieces(pieces) <==> AllSpace(pieces[0]) && AllSpacePieces(pieces[1..]) by {
        if AllSpace(pieces[0]) && AllSpacePieces(pieces[1..]) {
          forall k | 0 <= k < |pieces| ensures AllSpace(pieces[k]) {
            if k > 0 { assert pieces[k] == pieces[1..][k - 1]; }
          }
        }
        if AllSpacePieces(pieces) {
          forall k | 0 <= k < |pieces[1..]| ensures AllSpace(pieces[1..][k]) {
            assert pieces[1..][k] == pieces[k + 1];
          }
        }
      }
    }
  }

  /** A list is blank when its first character is a comma or whitespace and the rest is blank. */
  lemma BlankCons(s: string)
    requires |s| > 0
    ensures Blank(s) <==> (s[0] == ',' || IsSpace(s[0])) && Blank(s[1..])
  {
    assert forall k :: 0 < k < |s| ==> s[k] == s[1..][k - 1];
  }

  /** A string with one character in front is all whitespace when both parts are. */
  lemma AllSpaceCons(c: char, s: string)
    ensures AllSpace([c] + s) <==> IsSpace(c) && AllSpace(s)
  {
    var t := [c] + s;
    assert t[0] == c;
    assert forall k :: 0 <= k < |s| ==> s[k] == t[k + 1];
  }

  /** Pieces with one piece in front are all whitespace when both parts are. */
  lemma AllSpacePiecesCons(p: string, ps: seq<string>)
    ensures AllSpacePieces([p] + ps) <==> AllSpace(p) && AllSpacePieces(ps)
  {
    var t := [p] + ps;
    assert t[0] == p;
    assert forall k :: 0 <= k < |ps| ==> ps[k] == t[k + 1];
  }

  /** A list holds only commas and whitespace exactly when its pieces are all whitespace. */
  lemma {:induction false} SplitBlank(s: string)
    ensures Blank(s) <==> AllSpacePieces(Split(s, ','))
  {
    if |s| > 0 {
      var rest := Split(s[1..], ',');
      SplitBlank(s[1..]);
      BlankCons(s);
      assert s == [s[0]] + s[1..];
      if s[0] == ',' {
        assert Split(s, ',') == [""] + rest;
        AllSpacePiecesCons("", rest);
      } else {
        assert Split(s, ',') == [[s[0]] + rest[0]] + rest[1..];
        AllSpacePiecesCons([s[0]] + rest[0], rest[1..]);
        AllSpaceCons(s[0], rest[0]);
        assert rest == [rest[0]] + rest[1..];
        AllSpacePiecesCons(rest[0], rest[1..]);
      }
    }
  }

  /** The list yields no recipient exactly when it holds nothing but commas
      and whitespace. */
  lemma ParseOpenIdsEmptyIff(openids: string)
    ensures ParseOpenIds(openids) == [] <==> Blank(openids)
  {
    SplitBlank(openids);
    StripNonEmptyEmptyIff(Split(openids, ','));
  }

  // ---------------------------------------------------------------- fan-out

  /** The `status` of one result: the send endpoint's JSON reply, or the text
      of the exception raised while obtaining the token or sending. */
  datatype Status = Replied(body: string) | Failed(error: string)

  datatype PushResult = PushResult(openId: string, status: Status)

  /** The POST to the custom-send endpoint: the decoded reply, or the text of
      the exception raised by the request or the JSON decoding. */
  datatype SendFetch = SendRaised(error: string) | Sent(body: string)

  /** What the outside world answers during a push: for the `k`-th recipient,
      the clock, the token endpoint's reply and the send endpoint's reply to
      the token and payload it is given. */
  datatype World = World(clock: nat -> int, tokenAt: nat -> TokenFetch,
                         sendAt: (nat, string, Json) -> SendFetch)

  /** `push_text_message` for recipient number `k`, inside the loop's
      `try`: any exception becomes a `Failed` status. */
  function PushOne(openId: string, content: string, c: TokenCache, w: World, k: nat): (r: (PushResult, TokenCache))
    ensures r.0.openId == openId
    ensures r.0.status.Replied? ==> GetAccessToken(c, w.clock(k), w.tokenAt(k)).token.Ok?
    ensures r.1 == GetAccessToken(c, w.clock(k), w.tokenAt(k)).cache
    ensures var t := GetAccessToken(c, w.clock(k), w.tokenAt(k)).token;
      t.Err? ==> r.0.status == Failed(t.error)
    ensures var t := GetAccessToken(c, w.clock(k), w.tokenAt(k)).token;
      t.Ok? ==>
        match w.sendAt(k, t.value, TextPayload(openId, content))
        case SendRaised(e) => r.0.status == Failed(e)
        case Sent(b) => r.0.status == Replied(b)
  {
    var step := GetAccessToken(c, w.clock(k), w.tokenAt(k));
    match step.token
    case Err(e) => (PushResult(openId, Failed(e)), step.cache)
    case Ok(token) =>
      match w.sendAt(k, token, TextPayload(openId, content))
      case SendRaised(e) => (PushResult(openId, Failed(e)), step.cache)
      case Sent(body) => (PushResult(openId, Replied(body)), step.cache)
  }

  /** The loop over recipients from number `start` on, threading the token cache:
      one result per recipient, in order, whatever each push did. */
  function Fanout(users: seq<string>, content: string, c: TokenCache, w: World, start: nat)
    : (r: (seq<PushResult>, TokenCache))
    ensures |r.0| == |users|
    ensures forall k :: 0 <= k < |users| ==> r.0[k].openId == users[k]
    decreases |users|
  {
    if |users| == 0 then ([], c)
    else
      var (first, c1) := PushOne(users[0], content, c, w, start);
      var (rest, c2) := Fanout(users[1..], content, c1, w, start + 1);
      ([first] + rest, c2)
  }

  /** One turn of the loop: the first recipient's push, then the rest. */
  lemma FanoutStep(users: seq<string>, i: nat, content: string, c: TokenCache, w: World)
    requires i < |users|
    ensures var step := PushOne(users[i], content, c, w, i);
      var rest := Fanout(users[i + 1..], content, step.1, w, i + 1);
      && Fanout(users[i..], content, c, w, i).0 == [step.0] + rest.0
      && Fanout(users[i..], content, c, w, i).1 == rest.1
  {
    assert users[i..][0] == users[i];
    assert users[i..][1..] == users[i + 1..];
  }

  /** The handler's JSON answer. */
  datatype PushResponse =
    | NoValidOpenId(error: string)
    | Pushed(pushedCount: nat, results: seq<PushResult>)

  const NoValidOpenIdError: string := "没有有效 OpenID"

  /** The `for openid in user_list` loop of `push_message`: each push inside
      its own `try`, so a failure is recorded and the loop goes on. */
  method PushEach(users: seq<string>, content: string, cache: TokenCache, w: World)
    returns (results: seq<PushResult>, cacheOut: TokenCache)
    ensures |results| == |users|
    ensures forall k :: 0 <= k < |users| ==> results[k].openId == users[k]
    ensures (results, cacheOut) == Fanout(users, content, cache, w, 0)
  {
    results := [];
    var c := cache;
    var i := 0;
    ghost var whole := Fanout(users, content, cache, w, 0);
    assert users[0..] == users;
    while i < |users|
      invariant 0 <= i <= |users|
      invariant whole.0 == results + Fanout(users[i..], content, c, w, i).0
      invariant whole.1 == Fanout(users[i..], content, c, w, i).1
    {
      var step := PushOne(users[i], content, c, w, i);
      FanoutStep(users, i, content, c, w);
      results := results + [step.0];
      c := step.1;
      i := i + 1;
    }
    assert users[i..] == [];
    assert Fanout(users[i..], content, c, w, i).0 == [];
    cacheOut := c;
    assert results + [] == results;
  }

  /** `push_message`: parse the recipients, refuse an empty list before any
      request, otherwise push to each in turn and report one result apiece. */
  method PushMessage(content: string, openids: string, cache: TokenCache, w: World)
    returns (r: PushResponse, cacheOut: TokenCache)
    ensures ParseOpenIds(openids) == [] <==> r.NoValidOpenId?
    ensures r.NoValidOpenId? ==> r.error == NoValidOpenIdError && cacheOut == cache
    ensures r.Pushed? ==>
      var users := ParseOpenIds(openids);
      && r.pushedCount == |users| == |r.results|
      && (forall k :: 0 <= k < |users| ==> r.results[k].openId == users[k])
      && (r.results, cacheOut) == Fanout(users, content, cache, w, 0)
  {
    var users := ParseOpenIds(openids);
    if users == [] {
      return NoValidOpenId(NoValidOpenIdError), cache;
    }
    var results;
    results, cacheOut := PushEach(users, content, cache, w);
    r := Pushed(|results|, results);
  }
}

=== FILE: text.dfy ===
/** The handful of Python string operations the handlers rely on:
    `str.isspace`, `str.strip()`, `str.split(sep)`, `sep.join`, slicing off
    a suffix, and the code-point ordering `sorted` uses on strings. */
module Text {

  // ---------------------------------------------------------------- whitespace

  /** Python's `str.isspace()` on one character: the ASCII controls TAB..CR and
      FS..US, the space, NEL, NBSP and the Unicode space separators. */
  predicate IsSpace(c: char)
  {
    || c == ' '
    || ('\t' <= c <= '\r')
    || ('\U{1C}' <= c <= '\U{1F}')
    || c == '\U{85}' || c == '\U{A0}' || c == '\U{1680}'
    || ('\U{2000}' <= c <= '\U{200A}')
    || c == '\U{2028}' || c == '\U{2029}' || c == '\U{202F}'
    || c == '\U{205F}' || c == '\U{3000}'
  }

  predicate AllSpace(s: string)
  {
    forall k :: 0 <= k < |s| ==> IsSpace(s[k])
  }

  /** No whitespace at either end: what `strip()` leaves behind. */
  predicate Trimmed(s: string)
  {
    s == [] || (!IsSpace(s[0]) && !IsSpace(s[|s| - 1]))
  }

  /** The number of whitespace characters `s` starts with. */
  function LeadingSpace(s: string): (n: nat)
    ensures n <= |s|
    ensures AllSpace(s[..n])
    ensures n == |s| || !IsSpace(s[n])
  {
    if |s| > 0 && IsSpace(s[0]) then
      var m := LeadingSpace(s[1..]);
      assert s[..m + 1] == [s[0]] + s[1..][..m];
      m + 1
    else 0
  }

  /** Where the trailing whitespace of `s` begins. */
  function ContentEnd(s: string): (n: nat)
    ensures n <= |s|
    ensures AllSpace(s[n..])
    ensures n == 0 || !IsSpace(s[n - 1])
  {
    if |s| > 0 && IsSpace(s[|s| - 1]) then
      var m := ContentEnd(s[..|s| - 1]);
      assert s[m..] == s[..|s| - 1][m..] + [s[|s| - 1]];
      m
    else |s|
  }

  /** `r` is `s` with whitespace padding `s[..i]` before it and whitespace after it. */
  ghost predicate PaddedAt(s: string, r: string, i: nat)
  {
    i + |r| <= |s| && s[i..i + |r|] == r && AllSpace(s[..i]) && AllSpace(s[i + |r|..])
  }

  /** Python's `s.strip()`: the longest infix of `s` with no whitespace at either
      end, reached by removing only whitespace. */
  function Strip(s: string): (r: string)
    ensures Trimmed(r)
    ensures exists i: nat :: PaddedAt(s, r, i)
  {
    var i := LeadingSpace(s);
    var rest := s[i..];
    var j := ContentEnd(rest);
    var r := rest[..j];
    assert r == s[i..i + j];
    assert AllSpace(s[i + j..]) by {
      assert s[i + j..] == rest[j..];
    }
    assert r != [] ==> r[0] == s[i] && r[|r| - 1] == rest[j - 1];
    assert PaddedAt(s, r, i);
    r
  }

  /** A string without edge whitespace is its own strip. */
  lemma {:induction false} StripOfTrimmed(s: string)
    requires Trimmed(s)
    ensures Strip(s) == s
  {
    if s != [] {
      assert LeadingSpace(s) == 0;
      assert s[0..] == s;
      assert ContentEnd(s) == |s|;
    }
  }

  /** Stripping twice is stripping once. */
  lemma StripIdempotent(s: string)
    ensures Strip(Strip(s)) == Strip(s)
  {
    StripOfTrimmed(Strip(s));
  }

  /** Only an all-whitespace string strips to the empty string. */
  lemma StripEmptyIff(s: string)
    ensures Strip(s) == "" <==> AllSpace(s)
  {
    var i: nat :| PaddedAt(s, Strip(s), i);
    if Strip(s) == "" {
      assert s == s[..i] + s[i..];
      forall k | 0 <= k < |s| ensures IsSpace(s[k]) {
        if k < i { assert s[k] == s[..i][k]; } else { assert s[k] == s[i..][k - i]; }
      }
    } else {
      var c := Strip(s)[0];
      assert c == s[i];
      assert !IsSpace(c);
    }
  }

  // ---------------------------------------------------------------- suffixes

  /** Python's slice that ends `n` characters before the end, for positive `n`:
      `s` without its last `n` characters, or "" when `s` is shorter. (A zero
      end means the empty slice in Python, which this does not model.) */
  function DropLast(s: string, n: nat): (r: string)
    requires n > 0
    ensures |s| >= n ==> |r| == |s| - n
    ensures |s| < n ==> r == ""
    ensures r <= s
  {
    if |s| >= n then s[..|s| - n] else ""
  }

  // ---------------------------------------------------------------- split / join

  /** Python's `sep.join(xs)`. */
  function Join(xs: seq<string>, sep: char): string
  {
    if |xs| == 0 then ""
    else if |xs| == 1 then xs[0]
    else xs[0] + [sep] + Join(xs[1..], sep)
  }

  /** Joining after extending the first piece at the front extends the joined string. */
  lemma {:induction false} JoinConsHead(c: char, xs: seq<string>, sep: char)
    requires |xs| >= 1
    ensures Join([[c] + xs[0]] + xs[1..], sep) == [c] + Join(xs, sep)
  {
    var ys := [[c] + xs[0]] + xs[1..];
    assert ys[1..] == xs[1..];
  }

  /** Python's `s.split(sep)` for a one-character separator: the pieces between
      separators, at least one, none containing the separator, which joined back
      with the separator give `s` again. */
  function Split(s: string, sep: char): (r: seq<string>)
    ensures |r| >= 1
    ensures forall k :: 0 <= k < |r| ==> sep !in r[k]
    ensures Join(r, sep) == s
  {
    if |s| == 0 then [""]
    else
      var rest := Split(s[1..], sep);
      assert s == [s[0]] + s[1..];
      if s[0] == sep then
        assert Join([""] + rest, sep) == [sep] + Join(rest, sep) by {
          assert ([""] + rest)[1..] == rest;
        }
        [""] + rest
      else
        JoinConsHead(s[0], rest, sep);
        [[s[0]] + rest[0]] + rest[1..]
  }

  /** A string without the separator splits into itself alone. */
  lemma {:induction false} SplitNoSeparator(s: string, sep: char)
    requires sep !in s
    ensures Split(s, sep) == [s]
  {
    if |s| > 0 {
      SplitNoSeparator(s[1..], sep);
      assert s == [s[0]] + s[1..];
    }
  }

  /** Splitting a string at a separator splits the two sides independently. */
  lemma {:induction false} SplitConcat(a: string, b: string, sep: char)
    ensures Split(a + [sep] + b, sep) == Split(a, sep) + Split(b, sep)
  {
    var s := a + [sep] + b;
    if |a| == 0 {
      assert s == [sep] + b;
      assert s[1..] == b;
    } else {
      assert s[1..] == a[1..] + [sep] + b;
      SplitConcat(a[1..], b, sep);
    }
  }

  /** Splitting undoes joining when no piece holds the separator. */
  lemma {:induction false} SplitJoin(xs: seq<string>, sep: char)
    requires |xs| >= 1
    requires forall k :: 0 <= k < |xs| ==> sep !in xs[k]
    ensures Split(Join(xs, sep), sep) == xs
  {
    SplitNoSeparator(xs[0], sep);
    if |xs| > 1 {
      SplitConcat(xs[0], Join(xs[1..], sep), sep);
      SplitJoin(xs[1..], sep);
      assert xs == [xs[0]] + xs[1..];
    }
  }

  // ---------------------------------------------------------------- ordering

  /** Python's `<=` on `str`: lexicographic by code point, a proper prefix first. */
  predicate LexLe(a: string, b: string)
  {
    |a| == 0 || (|b| > 0 && (a[0] < b[0] || (a[0] == b[0] && LexLe(a[1..], b[1..]))))
  }

  lemma {:induction false} LexLeReflexive(a: string)
    ensures LexLe(a, a)
  {
    if |a| > 0 {
      LexLeReflexive(a[1..]);
    }
  }

  lemma {:induction false} LexLeTotal(a: string, b: string)
    ensures LexLe(a, b) || LexLe(b, a)
    decreases |a|
  {
    if |a| > 0 && |b| > 0 && a[0] == b[0] {
      LexLeTotal(a[1..], b[1..]);
    }
  }

  lemma {:induction false} LexLeAntisymmetric(a: string, b: string)
    requires LexLe(a, b) && LexLe(b, a)
    ensures a == b
    decreases |a|
  {
    if |a| > 0 {
      LexLeAntisymmetric(a[1..], b[1..]);
      assert a == [a[0]] + a[1..];
      assert b == [b[0]] + b[1..];
    }
  }

  lemma {:induction false} LexLeTransitive(a: string, b: string, c: string)
    requires LexLe(a, b) && LexLe(b, c)
    ensures LexLe(a, c)
    decreases |a|
  {
    if |a| > 0 && a[0] == b[0] && b[0] == c[0] {
      LexLeTransitive(a[1..], b[1..], c[1..]);
    }
  }

  ghost predicate Sorted(xs: seq<string>)
  {
    forall i, j :: 0 <= i < j < |xs| ==> LexLe(xs[i], xs[j])
  }

  function Insert(x: string, xs: seq<string>): (r: seq<string>)
    requires Sorted(xs)
    ensures Sorted(r)
    ensures multiset(r) == multiset(xs) + multiset{x}
    decreases |xs|
  {
    if |xs| == 0 then [x]
    else if LexLe(x, xs[0]) then
      assert forall j :: 0 < j < |xs| ==> LexLe(x, xs[j]) by {
        forall j | 0 < j < |xs| ensures LexLe(x, xs[j]) {
          LexLeTransitive(x, xs[0], xs[j]);
        }
      }
      [x] + xs
    else
      LexLeTotal(x, xs[0]);
      var rest := Insert(x, xs[1..]);
      assert xs == [xs[0]] + xs[1..];
      assert forall j :: 0 <= j < |rest| ==> LexLe(xs[0], rest[j]) by {
        forall j | 0 <= j < |rest| ensures LexLe(xs[0], rest[j]) {
          assert rest[j] in multiset(rest);
          assert rest[j] == x || rest[j] in multiset(xs[1..]);
        }
      }
      [xs[0]] + rest
  }

  /** Python's `sorted` on a list of strings. */
  function Sort(xs: seq<string>): (r: seq<string>)
    ensures Sorted(r)
    ensures multiset(r) == multiset(xs)
    decreases |xs|
  {
    if |xs| == 0 then []
    else
      assert xs == [xs[0]] + xs[1..];
      Insert(xs[0], Sort(xs[1..]))
  }

  /** The first element of a sorted list is at most every element of it. */
  lemma SortedHeadLeast(a: seq<string>, x: string)
    requires Sorted(a) && x in a
    ensures LexLe(a[0], x)
  {
    var i :| 0 <= i < |a| && a[i] == x;
    if i == 0 { LexLeReflexive(x); }
  }

  /** Two sorted lists with the same elements start with the same element. */
  lemma SortedSameHead(a: seq<string>, b: seq<string>)
    requires Sorted(a) && Sorted(b) && |a| > 0
    requires multiset(a) == multiset(b)
    ensures |b| > 0 && a[0] == b[0]
  {
    assert a[0] in multiset(b);
    assert |b| > 0;
    assert b[0] in multiset(a);
    SortedHeadLeast(a, b[0]);
    SortedHeadLeast(b, a[0]);
    LexLeAntisymmetric(a[0], b[0]);
  }

  /** Two sorted lists with the same elements are the same list. */
  lemma {:induction false} SortedUnique(a: seq<string>, b: seq<string>)
    requires Sorted(a) && Sorted(b)
    requires multiset(a) == multiset(b)
    ensures a == b
    decreases |a|
  {
    if |a| == 0 {
      assert |b| == |multiset(b)| == 0;
    } else {
      SortedSameHead(a, b);
      assert a == [a[0]] + a[1..];
      assert b == [b[0]] + b[1..];
      assert multiset(a[1..]) == multiset(a) - multiset{a[0]};
      assert multiset(b[1..]) == multiset(b) - multiset{b[0]};
      SortedUnique(a[1..], b[1..]);
    }
  }

  /** Sorting forgets the order of its input. */
  lemma SortPermutationInvariant(xs: seq<string>, ys: seq<string>)
    requires multiset(xs) == multiset(ys)
    ensures Sort(xs) == Sort(ys)
  {
    SortedUnique(Sort(xs), Sort(ys));
  }

  /** Python's `''.join(xs)`. */
  function Concat(xs: seq<string>): (r: string)
    ensures |xs| == 0 ==> r == ""
    ensures |xs| == 1 ==> r == xs[0]
    ensures |xs| > 0 ==> xs[0] <= r
  {
    if |xs| == 0 then ""
    else
      assert |xs| == 1 ==> Concat(xs[1..]) == "";
      xs[0] + Concat(xs[1..])
  }

  /** Joining two lists end to end joins each and concatenates the results. */
  lemma {:induction false} ConcatAppend(a: seq<string>, b: seq<string>)
    ensures Concat(a + b) == Concat(a) + Concat(b)
  {
    if |a| == 0 {
      assert a + b == b;
    } else {
      assert (a + b)[1..] == a[1..] + b;
      ConcatAppend(a[1..], b);
    }
  }
}
